=== FILE: README.md ===
# Cache simulator geometry

A trace-driven cache simulator builds its cache from three `unsigned`
parameters — block size B, associativity A and capacity C, plus two penalties
that are only stored. Its constructor derives everything else:

- the number of blocks, C / B;
- the number of sets, C / (B · A), where B · A is itself an `unsigned` product;
- four parallel per-block stores (tag, dirty bit, valid bit, replacement
  priority), resized to the block count and therefore value-initialised;
- three fields that split a 64-bit address:
  - the set offset, popcount(B − 1);
  - the set mask, set_count − 1 in `unsigned` arithmetic;
  - the tag offset, set offset + popcount(set mask).

Five 64-bit statistics counters start at zero.

The project has three modules:

- `Bits` holds the machine-integer vocabulary. `u32` and `u64` are bounded
  naturals. `Mul32` and `Sub32` write out the wrap-around. Popcount, powers of
  two, and bitwise AND/OR/shift are defined on naturals, with lemmas relating
  them to `/` and `%`.
- `CacheSim` holds the configuration, the derived `Geometry`, the per-block
  `CacheState`, the `Stats`, and the constructor `Make`. It proves:
  - what the derived numbers mean when the geometry is well formed: block size
    and set count powers of two, whether or not B · A wraps;
  - how the blocks split into sets;
  - what the constructor produces when the geometry is not well formed. It
    checks nothing: a capacity below one set, a non-power-of-two block size, or
    a wrapping product all go through.
- `AddressDecoder` reads the derived fields the way the simulator's field
  comments describe:
  - the set index is the set-mask bits above the set offset;
  - the tag is the bits above the tag offset;
  - the block offset is the bits below the block size.

  It proves that this shift-and-mask split agrees with division and remainder.
  It also proves that the three bit ranges are disjoint and cover the address,
  and that the address rebuilds from its fields by shifts and OR.

The constructor validates none of its arguments (CacheSim.cpp:7-37), so the
model has no error path. `TooSmallCapacityWrapsMask`, `NonPowerOfTwoBlockSize`
and `WrappedProductOverstatesSets` show what such configurations produce. The
associativity need not be a power of two for the shift-and-mask split, so the
model does not require one.

## Model

| member | source | states |
|---|---|---|
| Bits.Sub32 | CacheSim.cpp:33 | `unsigned` subtraction gives the plain difference when it does not underflow, and otherwise borrows exactly 2^32 |
| Bits.Wrap32 | CacheSim.cpp:20 | an `unsigned` result equals the mathematical value when it fits in 32 bits; otherwise it is strictly smaller and differs from it by a multiple of 2^32 |
| Bits.Mul32 | CacheSim.cpp:20 | the `unsigned` product B · A is the mathematical product when that fits in 32 bits, and is congruent to it modulo 2^32 in every case |
| Bits.Popcount | CacheSim.cpp:29 | `std::popcount` never exceeds its argument and is zero exactly for zero |
| Bits.And | CacheSim.h:43 | bitwise AND never exceeds either operand |
| Bits.Shl64 | CacheSim.h:41-42 | a `std::uint64_t` left shift is multiplication by 2^n when that fits in 64 bits, and is congruent to it modulo 2^64 for shift counts below 64, so bits pushed past bit 63 are dropped |
| Bits.Or | CacheSim.h:41-43 | bitwise OR is at least each operand and at most their sum |
| Bits.Shr | CacheSim.h:42 | a right shift never increases a value |
| Bits.PopcountOfMask | CacheSim.cpp:29-30 | the all-ones value 2^n − 1 has exactly n one bits, so popcount(B − 1) is log2 B for B = 2^n |
| Bits.PopcountU32 | CacheSim.cpp:36 | a 32-bit value has at most 32 one bits, so each popcount the constructor adds is at most 32 |
| Bits.MaskPopcountExactIff | CacheSim.cpp:29 | 2^popcount(x − 1) equals x if and only if x is a power of two |
| Bits.PowerOfTwoIsPow2 | CacheSim.cpp:29 | every power of two x is 2 raised to the popcount of x − 1 |
| Bits.AndLowMask | CacheSim.h:43 | AND with the n-bit all-ones mask is the remainder modulo 2^n |
| Bits.OrDisjoint | CacheSim.cpp:29-36 | OR of a multiple of 2^n with a value below 2^n is their sum |
| Bits.OrOfFields | CacheSim.cpp:29-36 | three fields in bit ranges [0, k), [k, t) and [t, …) combine by OR into their sum |
| Bits.Shl64Exact | CacheSim.h:41-42 | a 64-bit left shift that does not overflow is multiplication by 2^n and leaves the low n bits zero |
| Bits.ShrBound | CacheSim.h:42 | shifting a value below 2^n right by t leaves a value below 2^(n − t) |
| CacheSim.BlockCount | CacheSim.cpp:17 | the block count never exceeds the capacity, and is zero exactly when the capacity is below one block |
| CacheSim.BlockCountFloor | CacheSim.cpp:17 | the block count is the largest number of whole blocks that fits in the capacity |
| CacheSim.SetDivisor | CacheSim.cpp:20 | the set-count divisor is B · A when the product fits in 32 bits, and congruent to it modulo 2^32 otherwise |
| CacheSim.SetCount | CacheSim.cpp:20 | the set count never exceeds the capacity |
| CacheSim.SetCountFloor | CacheSim.cpp:20 | the set count is the largest multiple of the wrapped divisor that fits in the capacity, and of B · A when the product does not wrap |
| CacheSim.ResizedStores | CacheSim.cpp:23-26 | all four stores have the requested length, and every block has tag 0, is clean and invalid, and has priority 0 |
| CacheSim.Derive | CacheSim.cpp:29-36 | the configuration is kept; with at least one set, mask + 1 is the set count; with none, the mask is 2^32 − 1; the tag offset is at least the set offset |
| CacheSim.Make | CacheSim.cpp:7-37 | the constructor keeps the derived geometry, sizes all four stores to the block count with every block empty, and zeroes all five counters |
| CacheSim.DerivedFieldsOfPowers | CacheSim.cpp:29-36 | for B = 2^k and set count 2^m: set offset k, mask 2^m − 1, tag offset k + m |
| CacheSim.DerivedFields | CacheSim.cpp:29-36 | under a well-formed geometry, 2^set_offset = B, mask + 1 = set count, 2^(tag_offset − set_offset) = set count, 2^tag_offset = B · set count |
| CacheSim.SetOffsetExactIff | CacheSim.cpp:29-30 | 2^set_offset recovers the block size if and only if the block size is a power of two |
| CacheSim.BlockCountIsSetsTimesWays | CacheSim.cpp:17-20 | when the capacity is a whole number of sets, block count = set count · A |
| CacheSim.SetsFitInBlocks | CacheSim.cpp:17-20 | when B · A does not wrap, the sets never claim more than the block count |
| CacheSim.BlockIndex | CacheSim.cpp:17-26 | slot j < A of set s lies in the set's own range [s · A, (s + 1) · A) of the per-block stores sized there; this contiguous layout is assumed for the store-indexing code, which is not part of this model |
| CacheSim.SetSlotsInBounds | CacheSim.cpp:23-26 | every slot s · A + j of every set is a valid index into the per-block stores |
| CacheSim.SetsDisjoint | CacheSim.cpp:17-20 | distinct (set, slot) pairs name distinct blocks, so set s owns exactly [s · A, s · A + A) |
| CacheSim.Locate | CacheSim.cpp:17-20 | every block index is slot j < A of some set s, at position s · A + j |
| CacheSim.LocateInSet | CacheSim.cpp:17-20 | when the capacity is a whole number of sets, the set that owns a block is an existing set |
| CacheSim.LocateBlockIndex | CacheSim.cpp:17-20 | locating the block at slot j of set s gives back (s, j) |
| CacheSim.TooSmallCapacityWrapsMask | CacheSim.cpp:20-36 | a capacity below the `unsigned` (mod 2^32) product B · A gives zero sets; the mask wraps to 2^32 − 1, with 32 one bits, and the tag offset sits 32 bits above the set offset |
| CacheSim.NonPowerOfTwoBlockSize | CacheSim.cpp:29-30 | block size 12 gives set offset 3 with 2^3 ≠ 12, and shift and division then disagree at address 8; block size 10 gives set offset 2 while its floor logarithm is 3 |
| CacheSim.WrappedProductOverstatesSets | CacheSim.cpp:20 | B = 2^16 and A = 2^16 + 1 wrap to divisor 2^16, so a 1 MiB cache gets 16 sets although it cannot hold one |
| CacheSim.WrappedProductSplits | CacheSim.cpp:20-36 | that wrapped configuration still has a power-of-two block size and set count, so the decoding lemmas apply to it |
| AddressDecoder.SetIndex | CacheSim.h:41-43 | the set-mask bits above the set offset never exceed the mask |
| AddressDecoder.Tag | CacheSim.h:42 | the tag, the address shifted right by the tag offset, never exceeds the address |
| AddressDecoder.BlockOffset | CacheSim.h:41 | the bits below the block size are a valid offset within the block |
| AddressDecoder.Decompose | CacheSim.h:41-43 | the three extracted fields are bounded: tag by the address, set index by the mask, offset below the block size |
| AddressDecoder.Rebuild | CacheSim.h:41-43 | OR-ing the shifted tag, the shifted set index and the offset gives a value at least each of them and at most their sum |
| AddressDecoder.SetIndexInRange | CacheSim.cpp:33 | with at least one set, the extracted set index is a valid set number, even when the set count is not a power of two |
| AddressDecoder.DecodeMatchesDivMod | CacheSim.h:41-43 | under an exact geometry: offset = a mod B, set = (a / B) mod S, tag = a / (B · S) |
| AddressDecoder.TagIsQuotient | CacheSim.h:42 | under an exact geometry the tag is the address divided by B · S |
| AddressDecoder.ConstructorDecode | CacheSim.cpp:29-36 | for a well-formed configuration, the constructor's fields select among exactly set-count sets and decode by division and remainder |
| AddressDecoder.FieldsCompose | CacheSim.h:41-43 | the address equals tag · B · S + set · B + offset, with offset < B and set < S |
| AddressDecoder.TagOffsetBelow64 | CacheSim.cpp:36 | an exact geometry's tag offset is below 64 |
| AddressDecoder.FieldWidths | CacheSim.h:41-43 | offset, set and tag fit the bit ranges [0, set_offset), [set_offset, tag_offset) and [tag_offset, 64) |
| AddressDecoder.AddressBitOwner | CacheSim.h:41-43 | each address bit is the matching bit of exactly one field: offset below the set offset, set below the tag offset, tag above |
| AddressDecoder.ShiftedFields | CacheSim.h:41-43 | the shifted tag, the shifted set and the offset add up to the address, each within its own bit range |
| AddressDecoder.RebuildRoundTrip | CacheSim.cpp:29-36 | OR-ing tag << tag_offset, set << set_offset and the offset gives back the address |
| AddressDecoder.BlockBaseRoundTrip | CacheSim.cpp:29-36 | rebuilding with offset 0 gives the start of the address's block, a − a mod B, which decodes to the same tag and set |
| AddressDecoder.BaseDecodes | CacheSim.h:41-43 | the start of an address's block has that address's tag and set index and offset 0 |
| AddressDecoder.SameFieldsIffSameBlock | CacheSim.h:41-43 | two addresses share tag and set index if and only if they lie in the same memory block |

## Left out

- `access_cache`, `update_statistics`, `parse_trace_line`, `run`, `dump_statistics`, `print_statistics`: these are declared (CacheSim.h:58-75), but their bodies are not part of this model. The hit, miss, eviction and priority logic is therefore not modelled.
- AddressDecoder.SetIndex, AddressDecoder.Tag: the bodies of `extract_set_index` and `extract_tag` are not part of this model. The decoder follows the meaning the field comments give to the set offset, tag offset and mask (CacheSim.h:41-43). It returns the set index as a natural number rather than the declared `int`.
- Opening, asserting on and closing the trace file (CacheSim.cpp:13-14, 40-42): this is I/O.
- main.cpp is not part of this model: argument checking and default parameters.
- The miss rate and IPC reports are not part of this model: they are floating-point output.
- CacheSim.BlockIndex: the layout in which set s owns blocks [s · A, s · A + A) belongs to the code that indexes the stores. That code is not part of this model, so the layout is assumed.
- CacheSim.Make: it requires a non-zero block size and a non-zero wrapped B · A. The C++ division by zero is undefined behaviour, so there is no defined outcome to model.
- Geometry immutability has no lemma. The fields are private and only `run` could touch them, so it holds by construction. `Geometry` is an immutable datatype and no operation after `Make` is modelled.
- The `std::int64_t` counters and the `int` priorities are unbounded integers. They are only initialised here, so no overflow can arise.
- The dirty and valid stores hold `char` in the source and are modelled as `bool`, because they are only ever value-initialised flags.

=== FILE: address_decoder.dfy ===
/**
 How the derived geometry splits a 64-bit address.

 The simulator's field comments give the set offset as the position of the set
 index bits, the tag offset as the position of the tag bits and the set mask as
 the mask that extracts the set index; the set index is therefore
 `(address >> set_offset) & set_mask`, the tag `address >> tag_offset`, and the
 block offset `address & (block_size - 1)`. Under a well-formed geometry these
 agree with plain division and remainder, the three fields occupy disjoint
 contiguous bit ranges that cover the address, and the address can be rebuilt
 from them.
 */
module AddressDecoder {
  import opened Bits
  import opened CacheSim

  /** An address split into tag, set index and offset within the block. */
  datatype Fields = Fields(tag: nat, index: nat, offset: nat)

  /** The set-mask bits just above the set offset. */
  function SetIndex(g: Geometry, a: u64): (s: nat)
    ensures s <= g.setMask
  {
    And(Shr(a, g.setOffset), g.setMask)
  }

  /** The bits at and above the tag offset. */
  function Tag(g: Geometry, a: u64): (t: nat)
    ensures t <= a
  {
    Shr(a, g.tagOffset)
  }

  /** The bits below the block size. */
  function BlockOffset(g: Geometry, a: u64): (o: nat)
    requires g.config.blockSize >= 1
    ensures o < g.config.blockSize
  {
    And(a, g.config.blockSize - 1)
  }

  /** The three fields of an address, each within the range its extractor promises. */
  function Decompose(g: Geometry, a: u64): (f: Fields)
    requires g.config.blockSize >= 1
    ensures f.tag <= a && f.index <= g.setMask && f.offset < g.config.blockSize
  {
    Fields(Tag(g, a), SetIndex(g, a), BlockOffset(g, a))
  }

  /** `(tag << tag_offset) | (set << set_offset) | offset` on 64-bit words. */
  function Rebuild(g: Geometry, f: Fields): (r: nat)
    ensures Shl64(f.tag, g.tagOffset) <= r && Shl64(f.index, g.setOffset) <= r && f.offset <= r
    ensures r <= Shl64(f.tag, g.tagOffset) + Shl64(f.index, g.setOffset) + f.offset
  {
    Or(Or(Shl64(f.tag, g.tagOffset), Shl64(f.index, g.setOffset)), f.offset)
  }

  /** The number of sets the mask selects among. */
  function SetsOf(g: Geometry): (n: nat)
  {
    g.setMask + 1
  }

  /**
   With at least one set, the extracted set index is always a valid set number,
   whether or not the set count is a power of two.
   */
  lemma SetIndexInRange(c: Config, a: u64)
    requires Constructible(c) && SetCount(c) >= 1
    ensures SetIndex(Derive(c), a) < SetCount(c)
  {
  }

  /**
   For an exact geometry the shift-and-mask fields are the division fields:
   offset `a % B`, set `(a / B) % S`, tag `a / (B * S)`.
   */
  lemma DecodeMatchesDivMod(g: Geometry, a: u64)
    requires Exact(g)
    ensures BlockOffset(g, a) == a % g.config.blockSize
    ensures SetIndex(g, a) == (a / g.config.blockSize) % SetsOf(g)
    ensures Tag(g, a) == a / (g.config.blockSize * SetsOf(g))
  {
    AndLowMask(a, g.setOffset);
    AndLowMask(Shr(a, g.setOffset), g.tagOffset - g.setOffset);
    TagIsQuotient(g, a);
  }

  /** The tag is the quotient by the bytes that one pass over all sets covers. */
  lemma TagIsQuotient(g: Geometry, a: u64)
    requires Exact(g)
    ensures Tag(g, a) == a / (g.config.blockSize * SetsOf(g))
  {
    Pow2Add(g.setOffset, g.tagOffset - g.setOffset);
  }

  /**
   The constructor's fields decode by division whenever the geometry is well
   formed: offset `a % B`, set `(a / B) % set_count`, tag `a / (B * set_count)`.
   */
  lemma ConstructorDecode(c: Config, a: u64)
    requires ShiftMaskValid(c)
    ensures SetsOf(Derive(c)) == SetCount(c)
    ensures BlockOffset(Derive(c), a) == a % c.blockSize
    ensures SetIndex(Derive(c), a) == (a / c.blockSize) % SetCount(c)
    ensures Tag(Derive(c), a) == a / (c.blockSize * SetCount(c))
  {
    DerivedFields(c);
    DecodeMatchesDivMod(Derive(c), a);
  }

  /**
   The address is tag, set and offset placed side by side: the offset is below
   the block size, the set index below the set count, and
   `a == tag * B * S + set * B + offset`.
   */
  lemma FieldsCompose(g: Geometry, a: u64)
    requires Exact(g)
    ensures var f := Decompose(g, a);
      && f.offset < g.config.blockSize
      && f.index < SetsOf(g)
      && a == f.tag * (g.config.blockSize * SetsOf(g)) + f.index * g.config.blockSize + f.offset
  {
    DecodeMatchesDivMod(g, a);
    SplitIdentity(a, g.config.blockSize, SetsOf(g));
  }

  /**
   The tag offset lies below 64 and every field fits its bit range: the offset in
   [0, setOffset), the set index in [setOffset, tagOffset), the tag in
   [tagOffset, 64).
   */
  lemma FieldWidths(g: Geometry, a: u64)
    requires Exact(g)
    ensures g.tagOffset < 64
    ensures var f := Decompose(g, a);
      && f.offset < Pow2(g.setOffset)
      && f.index < Pow2(g.tagOffset - g.setOffset)
      && f.tag < Pow2(64 - g.tagOffset)
  {
    TagOffsetBelow64(g);
    Pow2Of64();
    ShrBound(a, 64, g.tagOffset);
  }

  /**
   An exact geometry spans fewer than 64 bits: 2^tagOffset is a product of two
   32-bit values.
   */
  lemma TagOffsetBelow64(g: Geometry)
    requires Exact(g)
    ensures g.tagOffset < 64
  {
    var k, t := g.setOffset, g.tagOffset;
    assert Pow2(t) == g.config.blockSize * SetsOf(g) by { Pow2Add(k, t - k); }
    U32ProductBound(g.config.blockSize, SetsOf(g));
    ExponentBelow(t, 64);
  }

  /**
   Offset, set and tag bits are disjoint and together cover the address: bit j
   of the address is bit j of the offset below the set offset, bit j - setOffset
   of the set index below the tag offset, and bit j - tagOffset of the tag above.
   */
  lemma AddressBitOwner(g: Geometry, a: u64, j: nat)
    requires Exact(g)
    ensures var f := Decompose(g, a);
      Bit(a, j) ==
        if j < g.setOffset then Bit(f.offset, j)
        else if j < g.tagOffset then Bit(f.index, j - g.setOffset)
        else Bit(f.tag, j - g.tagOffset)
  {
    var k, t := g.setOffset, g.tagOffset;
    AndLowMask(a, k);
    AndLowMask(Shr(a, k), t - k);
    if j < k {
      BitOfLow(a, k, j);
    } else if j < t {
      BitOfLow(Shr(a, k), t - k, j - k);
      BitOfShr(a, k, j - k);
    } else {
      BitOfShr(a, t, j - t);
    }
  }

  /**
   The shifted tag and set fields and the offset add up to the address, each
   sitting in its own bit range.
   */
  lemma ShiftedFields(g: Geometry, a: u64)
    requires Exact(g)
    ensures var f := Decompose(g, a);
      var hi, mid := Shl64(f.tag, g.tagOffset), Shl64(f.index, g.setOffset);
      && hi + mid + f.offset == a
      && hi % Pow2(g.tagOffset) == 0
      && mid % Pow2(g.setOffset) == 0 && mid < Pow2(g.tagOffset)
      && f.offset < Pow2(g.setOffset)
  {
    var f := Decompose(g, a);
    var k, t := g.setOffset, g.tagOffset;
    assert a == f.tag * Pow2(t) + f.index * Pow2(k) + f.offset by {
      Pow2Add(k, t - k);
      FieldsCompose(g, a);
    }
    assert f.index < Pow2(t - k) && f.offset < Pow2(k) by { FieldsCompose(g, a); }
    ShiftsOfFields(f.tag, f.index, f.offset, k, t, a);
  }

  /** Rebuilding an address from its three fields gives back the address. */
  lemma RebuildRoundTrip(g: Geometry, a: u64)
    requires Exact(g)
    ensures Rebuild(g, Decompose(g, a)) == a
  {
    var f := Decompose(g, a);
    ShiftedFields(g, a);
    OrOfFields(Shl64(f.tag, g.tagOffset), Shl64(f.index, g.setOffset), f.offset, g.setOffset, g.tagOffset);
  }

  /**
   Rebuilding with offset 0 gives the base address of the block holding `a`,
   and decoding that base yields the same tag and set index with offset 0.
   */
  lemma BlockBaseRoundTrip(g: Geometry, a: u64)
    requires Exact(g)
    ensures var f := Decompose(g, a);
      var base := Rebuild(g, Fields(f.tag, f.index, 0));
      && base == a - a % g.config.blockSize
      && Decompose(g, base) == Fields(f.tag, f.index, 0)
  {
    var f := Decompose(g, a);
    var hi, mid := Shl64(f.tag, g.tagOffset), Shl64(f.index, g.setOffset);
    assert Rebuild(g, Fields(f.tag, f.index, 0)) == a - f.offset by {
      ShiftedFields(g, a);
      OrOfFields(hi, mid, 0, g.setOffset, g.tagOffset);
    }
    DecodeMatchesDivMod(g, a);
    BaseDecodes(g, a);
  }

  /** The start of the block holding `a` has the tag and set index of `a` and offset 0. */
  lemma BaseDecodes(g: Geometry, a: u64)
    requires Exact(g)
    ensures Decompose(g, a - a % g.config.blockSize) == Fields(Tag(g, a), SetIndex(g, a), 0)
  {
    var b, s := g.config.blockSize, SetsOf(g);
    var base: u64 := a - a % b;
    assert base / b == a / b && base % b == 0 by { DivModUnique(base, b, a / b, 0); }
    DecodeMatchesDivMod(g, a);
    DecodeMatchesDivMod(g, base);
    DivModNested(a, b, s);
    DivModNested(base, b, s);
  }

  /**
   Two addresses get the same tag and set index exactly when they lie in the
   same block of memory: the pair (tag, set) names a memory block.
   */
  lemma SameFieldsIffSameBlock(g: Geometry, a: u64, a': u64)
    requires Exact(g)
    ensures (Tag(g, a) == Tag(g, a') && SetIndex(g, a) == SetIndex(g, a')) <==>
              a / g.config.blockSize == a' / g.config.blockSize
  {
    var b, s := g.config.blockSize, SetsOf(g);
    DecodeMatchesDivMod(g, a);
    DecodeMatchesDivMod(g, a');
    DivModNested(a, b, s);
    DivModNested(a', b, s);
    SameQuotientAndRemainder(a / b, a' / b, s);
  }
}

=== FILE: bits.dfy ===
/**
 Machine integers and the bit-level operations the cache geometry is built from.

 C++ `unsigned` is 32 bits wide and addresses are `std::uint64_t`; both are modelled
 as bounded `nat`s, and the wrap-around of unsigned arithmetic is written out
 (`Mul32`, `Sub32`). Bitwise AND and OR are defined on `nat` digit by digit, so
 that facts about masks and shifts can be proved as facts about `/` and `%`.
 */
module Bits {

  const U32_LIMIT: nat := 0x1_0000_0000
  const U64_LIMIT: nat := 0x1_0000_0000_0000_0000

  /** C++ `unsigned` */
  type u32 = x: nat | x < U32_LIMIT

  /** C++ `std::uint64_t` */
  type u64 = x: nat | x < U64_LIMIT

  /** Truncation of a mathematical value to 32 bits. */
  function Wrap32(v: nat): (r: u32)
    ensures v < U32_LIMIT ==> r == v
    ensures v >= U32_LIMIT ==> r < v
    ensures (v - r) % U32_LIMIT == 0
  {
    v % U32_LIMIT
  }

  /** Unsigned 32-bit multiplication: the mathematical product modulo 2^32. */
  function Mul32(x: u32, y: u32): (r: u32)
    ensures x * y < U32_LIMIT ==> r == x * y
    ensures (x * y - r) % U32_LIMIT == 0
  {
    Wrap32(x * y)
  }

  /** Unsigned 32-bit subtraction: it borrows from 2^32 when `y` exceeds `x`. */
  function Sub32(x: u32, y: u32): (r: u32)
    ensures y <= x ==> r == x - y
    ensures x < y ==> r + y == x + U32_LIMIT
  {
    (x - y) % U32_LIMIT
  }

  function Pow2(n: nat): (r: nat)
    ensures r >= 1
  {
    if n == 0 then 1 else 2 * Pow2(n - 1)
  }

  /** `std::popcount`: the number of one bits in `x`. */
  function Popcount(x: nat): (n: nat)
    ensures n <= x
    ensures n == 0 <==> x == 0
  {
    if x == 0 then 0 else x % 2 + Popcount(x / 2)
  }

  /** Bit `j` of `x` (0 or 1). */
  function Bit(x: nat, j: nat): (b: nat)
  {
    (x / Pow2(j)) % 2
  }

  /** Bitwise AND of two non-negative integers. */
  function And(x: nat, y: nat): (r: nat)
    ensures r <= x && r <= y
    decreases x
  {
    if x == 0 || y == 0 then 0
    else 2 * And(x / 2, y / 2) + (if x % 2 == 1 && y % 2 == 1 then 1 else 0)
  }

  /** Bitwise OR of two non-negative integers. */
  function Or(x: nat, y: nat): (r: nat)
    ensures x <= r && y <= r
    ensures r <= x + y
    decreases x + y
  {
    if x == 0 then y
    else if y == 0 then x
    else 2 * Or(x / 2, y / 2) + (if x % 2 == 1 || y % 2 == 1 then 1 else 0)
  }

  /** Logical right shift; for shift counts below the width it is division by 2^n. */
  function Shr(x: nat, n: nat): (r: nat)
    ensures r <= x
  {
    QuotientBounds(x, Pow2(n));
    x / Pow2(n)
  }

  /**
   Left shift of a `std::uint64_t`: bits pushed past bit 63 are lost. C++ leaves
   a shift count of 64 or more undefined; for such counts this returns 0, and only
   counts below 64 model the operator.
   */
  function Shl64(x: nat, n: nat): (r: u64)
    ensures x * Pow2(n) < U64_LIMIT ==> r == x * Pow2(n)
    ensures (x * Pow2(n) - r) % U64_LIMIT == 0
  {
    (x * Pow2(n)) % U64_LIMIT
  }

  /** `x` is one of 1, 2, 4, 8, ... */
  predicate IsPowerOfTwo(x: nat)
  {
    x == 1 || (x >= 2 && x % 2 == 0 && IsPowerOfTwo(x / 2))
  }

  /** Floor of the base-2 logarithm of a positive integer. */
  function Log2Floor(x: nat): (n: nat)
    requires x >= 1
  {
    if x == 1 then 0 else 1 + Log2Floor(x / 2)
  }

  // ---------------------------------------------------------------------------
  // Division and remainder

  lemma MulAtLeast(k: nat, d: nat)
    requires k >= 1
    ensures k * d >= d
  {
    assert k * d == (k - 1) * d + d;
  }

  lemma MulMonotone(x: nat, y: nat, b: nat)
    requires x <= y
    ensures x * b <= y * b
  {
    assert y * b == x * b + (y - x) * b;
  }

  /** Quotient and remainder are the only ones satisfying the division equation. */
  lemma DivModUnique(x: nat, d: nat, q: nat, r: nat)
    requires d >= 1 && r < d && x == q * d + r
    ensures x / d == q && x % d == r
  {
    var q', r' := x / d, x % d;
    assert x == q' * d + r';
    if q < q' {
      assert (q' - q) * d == r - r';
      MulAtLeast(q' - q, d);
    } else if q > q' {
      assert (q - q') * d == r' - r;
      MulAtLeast(q - q', d);
    }
  }

  lemma RegroupProduct(a: nat, b: nat, q: nat, q2: nat, r2: nat, r: nat)
    requires q == b * q2 + r2
    ensures a * q + r == (a * b) * q2 + (a * r2 + r)
  {
    assert a * q == a * (b * q2) + a * r2;
  }

  lemma RemainderBound(a: nat, b: nat, r2: nat, r: nat)
    requires r2 < b && r < a
    ensures a * r2 + r < a * b
  {
    MulMonotone(r2 + 1, b, a);
    assert (r2 + 1) * a == a * r2 + a;
  }

  /**
   The quotient of a natural number by a positive one is a natural number no
   larger than it, and it is zero exactly when the dividend is below the divisor.
   */
  lemma QuotientBounds(x: nat, d: nat)
    requires d >= 1
    ensures 0 <= x / d <= x
    ensures x / d == 0 <==> x < d
  {
    DivModUnique(x, d, x / d, x % d);
    MulAtLeast(d, x / d);
    if x < d {
      DivModUnique(x, d, 0, x);
    }
  }

  /** When `b * a` divides `x`, dividing `x` by `b` gives `a` times as much as dividing by `b * a`. */
  lemma ExactQuotientOfProduct(x: nat, b: nat, a: nat)
    requires b >= 1 && a >= 1 && x % (b * a) == 0
    ensures x / b == (x / (b * a)) * a
  {
    MulAtLeast(b, a);
    var n := x / (b * a);
    DivModUnique(x, b * a, n, 0);
    assert x == (n * a) * b;
    DivModUnique(x, b, n * a, 0);
  }

  /** Dividing by `a` then by `b` is dividing by `a*b`; the remainder splits likewise. */
  lemma DivModNested(x: nat, a: nat, b: nat)
    requires a >= 1 && b >= 1
    ensures x / (a * b) == (x / a) / b
    ensures x % (a * b) == a * ((x / a) % b) + x % a
  {
    var q, r := x / a, x % a;
    var q2, r2 := q / b, q % b;
    RegroupProduct(a, b, q, q2, r2, r);
    RemainderBound(a, b, r2, r);
    MulAtLeast(a, b);
    DivModUnique(x, a * b, q2, a * r2 + r);
  }

  /** Quotient and remainder by `d` together determine the dividend. */
  lemma SameQuotientAndRemainder(x: nat, y: nat, d: nat)
    requires d >= 1
    ensures (x / d == y / d && x % d == y % d) <==> x == y
  {
    assert x == d * (x / d) + x % d;
    assert y == d * (y / d) + y % d;
  }

  /** `x` is its quotient by `b * s`, then by `b` modulo `s`, then modulo `b`, side by side. */
  lemma SplitIdentity(x: nat, b: nat, s: nat)
    requires b >= 1 && s >= 1
    ensures (x / b) % s < s && x % b < b
    ensures x == (x / (b * s)) * (b * s) + ((x / b) % s) * b + x % b
  {
    DivModNested(x, b, s);
    var q := x / (b * s);
    assert x == (b * s) * q + x % (b * s);
  }

  // ---------------------------------------------------------------------------
  // Powers of two

  lemma {:induction false} Pow2Add(a: nat, b: nat)
    ensures Pow2(a + b) == Pow2(a) * Pow2(b)
    decreases a
  {
    if a > 0 {
      Pow2Add(a - 1, b);
      assert Pow2(a + b) == 2 * Pow2(a - 1 + b);
    }
  }

  lemma Pow2Monotonic(n: nat, j: nat)
    requires n <= j
    ensures Pow2(n) <= Pow2(j)
  {
    Pow2Add(n, j - n);
    assert Pow2(j) == Pow2(n) * Pow2(j - n);
  }

  /** Only exponents below n give powers of two below 2^n. */
  lemma ExponentBelow(t: nat, n: nat)
    requires Pow2(t) < Pow2(n)
    ensures t < n
  {
    if t >= n {
      Pow2Monotonic(n, t);
    }
  }

  lemma Pow2Of32()
    ensures Pow2(32) == U32_LIMIT
  {
    assert Pow2(4) == 16;
    Pow2Add(4, 4);
    Pow2Add(8, 8);
    Pow2Add(16, 16);
  }

  lemma Pow2Of64()
    ensures Pow2(64) == U64_LIMIT
  {
    Pow2Of32();
    Pow2Add(32, 32);
  }

  /** The product of an `unsigned` value and a value up to 2^32 fits in 64 bits. */
  lemma U32ProductBound(x: nat, y: nat)
    requires x < U32_LIMIT && y <= U32_LIMIT
    ensures x * y < Pow2(64)
  {
    Pow2Of64();
    MulMonotone(y, U32_LIMIT, x);
    assert x * U32_LIMIT < U32_LIMIT * U32_LIMIT;
  }

  /** Shifting an n-bit value right by t leaves an (n - t)-bit value. */
  lemma ShrBound(x: nat, n: nat, t: nat)
    requires x < Pow2(n) && t <= n
    ensures Shr(x, t) < Pow2(n - t)
  {
    Pow2Add(t, n - t);
    QuotientBelow(x, Pow2(t), Pow2(n - t));
  }

  /** A value below r * p has quotient below r when divided by p. */
  lemma QuotientBelow(x: nat, p: nat, r: nat)
    requires p >= 1 && x < p * r
    ensures x / p < r
  {
    if x / p >= r {
      MulMonotone(r, x / p, p);
      assert false;
    }
  }

  /** The n-bit all-ones value 2^n - 1 has exactly n one bits. */
  lemma {:induction false} PopcountOfMask(n: nat)
    ensures Popcount(Pow2(n) - 1) == n
  {
    if n > 0 {
      var m := Pow2(n) - 1;
      assert m == 2 * (Pow2(n - 1) - 1) + 1;
      assert m % 2 == 1 && m / 2 == Pow2(n - 1) - 1;
      PopcountOfMask(n - 1);
    }
  }

  /** An n-bit value has at most n one bits. */
  lemma {:induction false} PopcountBound(x: nat, n: nat)
    requires x < Pow2(n)
    ensures Popcount(x) <= n
  {
    if n > 0 && x > 0 {
      PopcountBound(x / 2, n - 1);
    }
  }

  /** A 32-bit value has at most 32 one bits. */
  lemma PopcountU32(x: u32)
    ensures Popcount(x) <= 32
  {
    Pow2Of32();
    PopcountBound(x, 32);
  }

  lemma {:induction false} Pow2IsPowerOfTwo(n: nat)
    ensures IsPowerOfTwo(Pow2(n))
  {
    if n > 0 {
      Pow2IsPowerOfTwo(n - 1);
      assert Pow2(n) / 2 == Pow2(n - 1);
    }
  }

  /** A power of two x is 2^k for k the popcount of x - 1. */
  lemma {:induction false} PowerOfTwoIsPow2(x: nat)
    requires IsPowerOfTwo(x)
    ensures x >= 1 && x == Pow2(Popcount(x - 1))
    decreases x
  {
    if x != 1 {
      var h := x / 2;
      PowerOfTwoIsPow2(h);
      assert x - 1 == 2 * (h - 1) + 1;
      assert (x - 1) % 2 == 1 && (x - 1) / 2 == h - 1;
      assert Popcount(x - 1) == 1 + Popcount(h - 1);
    }
  }

  /**
   `Pow2(Popcount(x - 1))` gives back `x` exactly when `x` is a power of two:
   counting the one bits of x - 1 yields log2(x) for powers of two only.
   */
  lemma {:induction false} MaskPopcountExactIff(x: nat)
    requires x >= 1
    ensures Pow2(Popcount(x - 1)) == x <==> IsPowerOfTwo(x)
  {
    if IsPowerOfTwo(x) {
      PowerOfTwoIsPow2(x);
    }
    if Pow2(Popcount(x - 1)) == x {
      Pow2IsPowerOfTwo(Popcount(x - 1));
    }
  }

  // ---------------------------------------------------------------------------
  // Masks and shifts

  /** AND with an odd value keeps the low bit of `x` and recurses on the rest. */
  lemma AndOdd(x: nat, q: nat)
    ensures And(x, 2 * q + 1) == 2 * And(x / 2, q) + x % 2
  {
    DivModUnique(2 * q + 1, 2, q, 1);
  }

  /** Masking with the n-bit all-ones value keeps the remainder modulo 2^n. */
  lemma AndLowMask(x: nat, n: nat)
    ensures And(x, Pow2(n) - 1) == x % Pow2(n)
  {
    AndBelowPower(x, n, Pow2(n));
  }

  lemma {:induction false} AndBelowPower(x: nat, n: nat, p: nat)
    requires p == Pow2(n)
    ensures And(x, p - 1) == x % p
  {
    if n > 0 {
      var q := Pow2(n - 1) - 1;
      AndBelowPower(x / 2, n - 1, q + 1);
      AndLowMaskStep(x, q);
    }
  }

  /** One more one bit in the mask keeps one more low bit of `x`. */
  lemma AndLowMaskStep(x: nat, q: nat)
    requires And(x / 2, q) == (x / 2) % (q + 1)
    ensures And(x, 2 * q + 1) == x % (2 * (q + 1))
  {
    AndOdd(x, q);
    DivModNested(x, 2, q + 1);
  }

  /**
   OR of a multiple of 2^n with a value below 2^n is their sum: the low n bits
   of the first are zero, so no bit position is set in both.
   */
  lemma {:induction false} OrDisjoint(x: nat, lo: nat, n: nat)
    requires x % Pow2(n) == 0 && lo < Pow2(n)
    ensures Or(x, lo) == x + lo
  {
    if n > 0 && x != 0 && lo != 0 {
      var p := Pow2(n - 1);
      assert x % 2 == 0 && (x / 2) % p == 0 by { DivModNested(x, 2, p); }
      assert lo / 2 < p;
      OrDisjoint(x / 2, lo / 2, n - 1);
    }
  }

  /** A multiple of 2^t is a multiple of every smaller power of two. */
  lemma MultipleOfSmallerPower(x: nat, k: nat, t: nat)
    requires k <= t && x % Pow2(t) == 0
    ensures x % Pow2(k) == 0
  {
    Pow2Add(k, t - k);
    MultipleOfFactor(x, Pow2(k), Pow2(t - k));
  }

  lemma MultipleOfFactor(x: nat, a: nat, b: nat)
    requires a >= 1 && b >= 1 && x % (a * b) == 0
    ensures x % a == 0
  {
    var q := x / (a * b);
    assert x == q * (a * b);
    assert x == (q * b) * a;
    DivModUnique(x, a, q * b, 0);
  }

  lemma SumOfMultiples(x: nat, y: nat, p: nat)
    requires p >= 1 && x % p == 0 && y % p == 0
    ensures (x + y) % p == 0
  {
    DivModUnique(x + y, p, x / p + y / p, 0);
  }

  /** A 64-bit left shift loses nothing when the product fits, and leaves the low n bits zero. */
  lemma Shl64Exact(x: nat, n: nat)
    requires x * Pow2(n) < U64_LIMIT
    ensures Shl64(x, n) == x * Pow2(n)
    ensures Shl64(x, n) % Pow2(n) == 0
  {
    DivModUnique(x * Pow2(n), U64_LIMIT, 0, x * Pow2(n));
    DivModUnique(x * Pow2(n), Pow2(n), x, 0);
  }

  /** A field below 2^(t-k) shifted left by k stays below 2^t. */
  lemma ShiftedFieldBound(x: nat, k: nat, t: nat)
    requires k <= t && x < Pow2(t - k)
    ensures x * Pow2(k) < Pow2(t)
  {
    Pow2Add(k, t - k);
    ProductBelow(x, Pow2(t - k), Pow2(k));
  }

  lemma ProductBelow(x: nat, y: nat, b: nat)
    requires x < y && b >= 1
    ensures x * b < y * b
  {
    MulMonotone(x + 1, y, b);
  }

  /**
   Fields `hi`, `mid`, `lo` that make up `a` as `hi * 2^t + mid * 2^k + lo` are
   shifted into place by 64-bit left shifts without loss, each landing in its
   own bit range.
   */
  lemma ShiftsOfFields(hi: nat, mid: nat, lo: nat, k: nat, t: nat, a: nat)
    requires k <= t && mid < Pow2(t - k) && a < U64_LIMIT
    requires a == hi * Pow2(t) + mid * Pow2(k) + lo
    ensures Shl64(hi, t) + Shl64(mid, k) + lo == a
    ensures Shl64(hi, t) % Pow2(t) == 0
    ensures Shl64(mid, k) % Pow2(k) == 0 && Shl64(mid, k) < Pow2(t)
  {
    ShiftedFieldBound(mid, k, t);
    Shl64Exact(hi, t);
    Shl64Exact(mid, k);
  }

  /**
   Three fields occupying bit ranges [0, k), [k, t) and [t, ...) combine by OR
   into their sum: the ranges do not overlap, so no carries occur.
   */
  lemma OrOfFields(hi: nat, mid: nat, lo: nat, k: nat, t: nat)
    requires k <= t && hi % Pow2(t) == 0
    requires mid % Pow2(k) == 0 && mid < Pow2(t) && lo < Pow2(k)
    ensures Or(Or(hi, mid), lo) == hi + mid + lo
  {
    OrDisjoint(hi, mid, t);
    assert (hi + mid) % Pow2(k) == 0 by {
      MultipleOfSmallerPower(hi, k, t);
      SumOfMultiples(hi, mid, Pow2(k));
    }
    OrDisjoint(hi + mid, lo, k);
  }

  /** Bit j of x shifted right by n is bit n + j of x. */
  lemma BitOfShr(x: nat, n: nat, j: nat)
    ensures Bit(Shr(x, n), j) == Bit(x, n + j)
  {
    DivModNested(x, Pow2(n), Pow2(j));
    Pow2Add(n, j);
  }

  /** Reducing modulo `a * b` and then dividing by `a` reduces the quotient modulo `b`. */
  lemma ModThenDiv(x: nat, a: nat, b: nat)
    requires a >= 1 && b >= 1
    ensures (x % (a * b)) / a == (x / a) % b
  {
    DivModNested(x, a, b);
    DivModUnique(x % (a * b), a, (x / a) % b, x % a);
  }

  /** An even modulus keeps the parity. */
  lemma ModEvenParity(y: nat, h: nat)
    requires h >= 1
    ensures (y % (2 * h)) % 2 == y % 2
  {
    DivModNested(y, 2, h);
    DivModUnique(y % (2 * h), 2, (y / 2) % h, y % 2);
  }

  /** Taking x modulo 2^n keeps its bits below n. */
  lemma BitOfLow(x: nat, n: nat, j: nat)
    requires j < n
    ensures Bit(x % Pow2(n), j) == Bit(x, j)
  {
    var pj, h := Pow2(j), Pow2(n - j - 1);
    assert Pow2(n) == pj * (2 * h) by {
      Pow2Add(j, n - j);
    }
    LowBitsKept(x, pj, h);
  }

  /** Reducing modulo `a * 2h` does not change the parity of the quotient by `a`. */
  lemma LowBitsKept(x: nat, a: nat, h: nat)
    requires a >= 1 && h >= 1
    ensures ((x % (a * (2 * h))) / a) % 2 == (x / a) % 2
  {
    ModThenDiv(x, a, 2 * h);
    ModEvenParity(x / a, h);
  }
}

=== FILE: cache_sim.dfy ===
/**
 The state a `CacheSimulator` holds once its constructor has run.

 The constructor takes the block size, associativity and capacity (all C++
 `unsigned`) and derives from them the number of blocks, the number of sets, and
 three fields that split an address into block offset, set index and tag:
 the set offset, the tag offset and the set mask. It then sizes four parallel
 per-block stores (tag, dirty, valid, priority). It validates none of its
 arguments; the lemmas at the end of this module say what the derived fields
 mean when the geometry is well formed and what they become when it is not.
 */
module CacheSim {
  import opened Bits

  /** The five configuration arguments, kept unchanged in the simulator. */
  datatype Config = Config(
    blockSize: u32,
    associativity: u32,
    cacheCapacity: u32,
    missPenalty: u32,
    dirtyWritebackPenalty: u32)

  /** Configuration plus the three derived fields; none changes after construction. */
  datatype Geometry = Geometry(
    config: Config,
    setOffset: u32,
    tagOffset: u32,
    setMask: u32)

  /** Per-block metadata as four parallel stores indexed by block number. */
  datatype CacheState = CacheState(
    tags: seq<u64>,
    dirty: seq<bool>,
    valid: seq<bool>,
    priority: seq<int>)

  /** The five 64-bit performance counters. */
  datatype Stats = Stats(
    writes: int,
    accesses: int,
    misses: int,
    dirtyWritebacks: int,
    instructions: int)

  datatype Simulator = Simulator(geometry: Geometry, state: CacheState, stats: Stats)

  /** The divisor of the set count, an `unsigned` product that wraps modulo 2^32. */
  function SetDivisor(c: Config): (d: u32)
    ensures c.blockSize * c.associativity < U32_LIMIT ==> d == c.blockSize * c.associativity
    ensures (c.blockSize * c.associativity - d) % U32_LIMIT == 0
  {
    Mul32(c.blockSize, c.associativity)
  }

  /**
   The constructor divides by the block size and by the wrapped product of block
   size and associativity; a zero divisor is undefined behaviour in C++, so both
   must be non-zero for construction to mean anything.
   */
  predicate Constructible(c: Config)
  {
    c.blockSize > 0 && SetDivisor(c) > 0
  }

  /** Number of blocks: the capacity divided by the block size, rounded down. */
  function BlockCount(c: Config): (n: nat)
    requires c.blockSize > 0
    ensures n <= c.cacheCapacity
    ensures n == 0 <==> c.cacheCapacity < c.blockSize
  {
    QuotientBounds(c.cacheCapacity, c.blockSize);
    c.cacheCapacity / c.blockSize
  }

  /** Number of sets: the capacity divided by the wrapped `unsigned` product, rounded down. */
  function SetCount(c: Config): (n: u32)
    requires Constructible(c)
    ensures n <= c.cacheCapacity
  {
    QuotientBounds(c.cacheCapacity, SetDivisor(c));
    c.cacheCapacity / SetDivisor(c)
  }

  /** The block count is the number of whole blocks that fit in the capacity. */
  lemma BlockCountFloor(c: Config)
    requires c.blockSize > 0
    ensures BlockCount(c) * c.blockSize <= c.cacheCapacity < (BlockCount(c) + 1) * c.blockSize
  {
    DivModUnique(c.cacheCapacity, c.blockSize, c.cacheCapacity / c.blockSize, c.cacheCapacity % c.blockSize);
  }

  /**
   The set count is the number of whole multiples of the wrapped divisor that fit
   in the capacity; when the product of block size and associativity does not
   wrap, the number of whole groups of `associativity` blocks.
   */
  lemma SetCountFloor(c: Config)
    requires Constructible(c)
    ensures SetCount(c) * SetDivisor(c) <= c.cacheCapacity < (SetCount(c) + 1) * SetDivisor(c)
    ensures c.blockSize * c.associativity < U32_LIMIT ==>
              SetCount(c) * (c.blockSize * c.associativity) <= c.cacheCapacity < (SetCount(c) + 1) * (c.blockSize * c.associativity)
  {
    var d := SetDivisor(c);
    DivModUnique(c.cacheCapacity, d, c.cacheCapacity / d, c.cacheCapacity % d);
  }

  /** The four stores all hold exactly `n` entries. */
  predicate Parallel(s: CacheState, n: nat)
  {
    |s.tags| == n && |s.dirty| == n && |s.valid| == n && |s.priority| == n
  }

  /** Block `i` holds the value-initialised contents: tag 0, clean, invalid, priority 0. */
  predicate BlockIsEmpty(s: CacheState, i: nat)
    requires Parallel(s, |s.tags|) && i < |s.tags|
  {
    s.tags[i] == 0 && !s.dirty[i] && !s.valid[i] && s.priority[i] == 0
  }

  predicate AllBlocksEmpty(s: CacheState)
    requires Parallel(s, |s.tags|)
  {
    forall i :: 0 <= i < |s.tags| ==> BlockIsEmpty(s, i)
  }

  /** Every counter reads zero. */
  predicate StatsZero(st: Stats)
  {
    st.writes == 0 && st.accesses == 0 && st.misses == 0 && st.dirtyWritebacks == 0 && st.instructions == 0
  }

  /** Four freshly resized (empty, then grown to `n`) vectors. */
  function ResizedStores(n: nat): (s: CacheState)
    ensures Parallel(s, n) && AllBlocksEmpty(s)
  {
    CacheState(seq(n, _ => 0), seq(n, _ => false), seq(n, _ => false), seq(n, _ => 0))
  }

  /**
   The constructor's derivation of the three address fields. The set offset
   counts the one bits of `block_size - 1`; the set mask is `set_count - 1` in
   `unsigned` arithmetic, so it wraps to all ones when there are no sets; the tag
   offset adds the one bits of the mask to the set offset.
   */
  function Derive(c: Config): (g: Geometry)
    requires Constructible(c)
    ensures g.config == c
    ensures SetCount(c) >= 1 ==> g.setMask + 1 == SetCount(c)
    ensures SetCount(c) == 0 ==> g.setMask == U32_LIMIT - 1
    ensures g.tagOffset >= g.setOffset
  {
    var blockBits := Popcount(Sub32(c.blockSize, 1));
    var setMask := Sub32(SetCount(c), 1);
    PopcountU32(Sub32(c.blockSize, 1));
    PopcountU32(setMask);
    Geometry(c, blockBits, blockBits + Popcount(setMask), setMask)
  }

  /**
   The whole constructor: the derived geometry, the four stores resized to the
   block count with every block empty, and all counters at zero.
   */
  function Make(c: Config): (sim: Simulator)
    requires Constructible(c)
    ensures sim.geometry == Derive(c)
    ensures Parallel(sim.state, BlockCount(c)) && AllBlocksEmpty(sim.state)
    ensures StatsZero(sim.stats)
  {
    Simulator(Derive(c), ResizedStores(BlockCount(c)), Stats(0, 0, 0, 0, 0))
  }

  // ---------------------------------------------------------------------------
  // Well-formed geometry

  /**
   The conditions under which the derived fields split addresses by shift and
   mask: the block size and the set count are powers of two. The product of
   block size and associativity may wrap; the split only sees the set count.
   */
  predicate ShiftMaskValid(c: Config)
  {
    && IsPowerOfTwo(c.blockSize)
    && Constructible(c)
    && IsPowerOfTwo(SetCount(c))
  }

  /**
   The derived fields describe a power-of-two split: 2^setOffset is the block
   size and the mask is the all-ones value of the tagOffset - setOffset bits
   between them.
   */
  predicate Exact(g: Geometry)
  {
    && g.setOffset <= g.tagOffset
    && Pow2(g.setOffset) == g.config.blockSize
    && g.setMask + 1 == Pow2(g.tagOffset - g.setOffset)
  }

  /** The capacity is a whole number of sets of `associativity` blocks. */
  predicate EvenlyDivided(c: Config)
  {
    && c.associativity >= 1
    && c.blockSize * c.associativity < U32_LIMIT
    && Constructible(c)
    && c.cacheCapacity % SetDivisor(c) == 0
  }

  /** Position of slot `slot` of set `s` in the per-block stores. */
  function BlockIndex(c: Config, s: nat, slot: nat): (i: nat)
    ensures slot < c.associativity ==> s * c.associativity <= i < (s + 1) * c.associativity
  {
    s * c.associativity + slot
  }

  /**
   For block size 2^k and set count 2^m, the set offset is k, the set mask is
   2^m - 1 and the tag offset is k + m.
   */
  lemma DerivedFieldsOfPowers(c: Config, k: nat, m: nat)
    requires Constructible(c) && c.blockSize == Pow2(k) && SetCount(c) == Pow2(m)
    ensures Derive(c).setOffset == k
    ensures Derive(c).setMask == Pow2(m) - 1
    ensures Derive(c).tagOffset == k + m
  {
    PopcountOfMask(k);
    PopcountOfMask(m);
  }

  /**
   Under a well-formed geometry the derived fields are exact: 2^setOffset is the
   block size, the mask is one below the set count, and 2^tagOffset is the
   number of bytes that one pass over all sets covers.
   */
  lemma DerivedFields(c: Config)
    requires ShiftMaskValid(c)
    ensures Pow2(Derive(c).setOffset) == c.blockSize
    ensures Derive(c).setMask + 1 == SetCount(c)
    ensures Pow2(Derive(c).tagOffset - Derive(c).setOffset) == SetCount(c)
    ensures Pow2(Derive(c).tagOffset) == c.blockSize * SetCount(c)
    ensures Exact(Derive(c))
  {
    var g := Derive(c);
    PowerOfTwoIsPow2(c.blockSize);
    PowerOfTwoIsPow2(SetCount(c));
    DerivedFieldsOfPowers(c, Popcount(c.blockSize - 1), Popcount(SetCount(c) - 1));
    Pow2Add(g.setOffset, g.tagOffset - g.setOffset);
  }

  /**
   The set offset recovers the block size exactly when the block size is a
   power of two; otherwise 2^setOffset is some other number.
   */
  lemma SetOffsetExactIff(c: Config)
    requires Constructible(c)
    ensures Pow2(Derive(c).setOffset) == c.blockSize <==> IsPowerOfTwo(c.blockSize)
  {
    MaskPopcountExactIff(c.blockSize);
  }

  /** With a whole number of sets, the block count is the set count times the associativity. */
  lemma BlockCountIsSetsTimesWays(c: Config)
    requires EvenlyDivided(c)
    ensures BlockCount(c) == SetCount(c) * c.associativity
  {
    assert SetDivisor(c) == c.blockSize * c.associativity;
    ExactQuotientOfProduct(c.cacheCapacity, c.blockSize, c.associativity);
  }

  /** Slot `slot` of set `s` lies inside the first `n * A` blocks. */
  lemma SlotInRange(c: Config, n: nat, s: nat, slot: nat)
    requires s < n && slot < c.associativity
    ensures BlockIndex(c, s, slot) < n * c.associativity
  {
    MulMonotone(s + 1, n, c.associativity);
  }

  /** A block index splits into its set (quotient) and its slot (remainder) uniquely. */
  lemma BlockIndexUnique(c: Config, s: nat, slot: nat, s': nat, slot': nat)
    requires slot < c.associativity && slot' < c.associativity
    requires BlockIndex(c, s, slot) == BlockIndex(c, s', slot')
    ensures s == s' && slot == slot'
  {
    DivModUnique(BlockIndex(c, s, slot), c.associativity, s, slot);
    DivModUnique(BlockIndex(c, s', slot'), c.associativity, s', slot');
  }

  /** Every slot of every set is a valid index into the per-block stores. */
  lemma SetSlotsInBounds(c: Config)
    requires EvenlyDivided(c)
    ensures forall s, slot :: 0 <= s < SetCount(c) && 0 <= slot < c.associativity ==>
              BlockIndex(c, s, slot) < BlockCount(c)
  {
    var n, bc := SetCount(c), BlockCount(c);
    assert bc == n * c.associativity by { BlockCountIsSetsTimesWays(c); }
    forall s, slot | 0 <= s < n && 0 <= slot < c.associativity
      ensures BlockIndex(c, s, slot) < bc
    {
      SlotInRange(c, n, s, slot);
    }
  }

  /**
   The set and slot that own block `i`: the inverse of `BlockIndex` for slots
   below the associativity.
   */
  function Locate(c: Config, i: nat): (p: (nat, nat))
    requires c.associativity >= 1
    ensures p.1 < c.associativity
    ensures BlockIndex(c, p.0, p.1) == i
  {
    DivModUnique(i, c.associativity, i / c.associativity, i % c.associativity);
    (i / c.associativity, i % c.associativity)
  }

  /** With a whole number of sets, every block belongs to an existing set. */
  lemma LocateInSet(c: Config, i: nat)
    requires EvenlyDivided(c) && i < BlockCount(c)
    ensures Locate(c, i).0 < SetCount(c)
  {
    var n, p := SetCount(c), Locate(c, i);
    assert i < n * c.associativity by { BlockCountIsSetsTimesWays(c); }
    if p.0 >= n {
      MulMonotone(n, p.0, c.associativity);
      assert false;
    }
  }

  /** Locating the block at slot `slot` of set `s` gives back `(s, slot)`. */
  lemma LocateBlockIndex(c: Config, s: nat, slot: nat)
    requires EvenlyDivided(c) && s < SetCount(c) && slot < c.associativity
    ensures BlockIndex(c, s, slot) < BlockCount(c)
    ensures Locate(c, BlockIndex(c, s, slot)) == (s, slot)
  {
    var n := SetCount(c);
    assert BlockCount(c) == n * c.associativity by { BlockCountIsSetsTimesWays(c); }
    SlotInRange(c, n, s, slot);
    var p := Locate(c, BlockIndex(c, s, slot));
    BlockIndexUnique(c, p.0, p.1, s, slot);
  }

  /** Distinct (set, slot) pairs name distinct blocks, so the sets do not overlap. */
  lemma SetsDisjoint(c: Config)
    requires c.associativity >= 1
    ensures forall s, slot, s', slot' ::
              (0 <= slot < c.associativity && 0 <= slot' < c.associativity &&
               BlockIndex(c, s, slot) == BlockIndex(c, s', slot')) ==> s == s' && slot == slot'
  {
    forall s, slot, s', slot' |
      0 <= slot < c.associativity && 0 <= slot' < c.associativity && BlockIndex(c, s, slot) == BlockIndex(c, s', slot')
      ensures s == s' && slot == slot'
    {
      BlockIndexUnique(c, s, slot, s', slot');
    }
  }

  /** Without wrap-around the sets never claim more blocks than exist. */
  lemma SetsFitInBlocks(c: Config)
    requires c.blockSize >= 1 && c.associativity >= 1 && c.blockSize * c.associativity < U32_LIMIT
    ensures Constructible(c)
    ensures SetCount(c) * c.associativity <= BlockCount(c)
  {
    var b, a := c.blockSize, c.associativity;
    assert SetDivisor(c) == b * a;
    var n, bc := SetCount(c), BlockCount(c);
    SetCountFloor(c);
    BlockCountFloor(c);
    assert (n * a) * b <= c.cacheCapacity;
    if n * a >= bc + 1 {
      MulMonotone(bc + 1, n * a, b);
      assert false;
    }
  }

  // ---------------------------------------------------------------------------
  // Misconfigurations the constructor lets through

  /**
   A capacity smaller than one set gives zero sets; the `unsigned` mask then
   wraps to all ones, whose 32 one bits push the tag offset 32 bits above the
   set offset.
   */
  lemma TooSmallCapacityWrapsMask(c: Config)
    requires Constructible(c) && c.cacheCapacity < SetDivisor(c)
    ensures SetCount(c) == 0
    ensures Derive(c).setMask == U32_LIMIT - 1
    ensures Popcount(Derive(c).setMask) == 32
    ensures Derive(c).tagOffset == Derive(c).setOffset + 32
  {
    DivModUnique(c.cacheCapacity, SetDivisor(c), 0, c.cacheCapacity);
    var g := Derive(c);
    assert g.setMask == U32_LIMIT - 1;
    Pow2Of32();
    PopcountOfMask(32);
  }

  /**
   Block size 12 is accepted: the set offset is 3, yet 2^3 is 8, not 12, so the
   shift form and the division form place address 8 in different blocks. Block
   size 10 gives set offset 2 while its floor logarithm is 3.
   */
  lemma NonPowerOfTwoBlockSize()
    ensures Constructible(Config(12, 1, 96, 30, 2))
    ensures Derive(Config(12, 1, 96, 30, 2)).setOffset == 3
    ensures Pow2(3) != 12
    ensures Shr(8, 3) != 8 / 12
    ensures Constructible(Config(10, 1, 80, 30, 2))
    ensures Derive(Config(10, 1, 80, 30, 2)).setOffset == 2 && Log2Floor(10) == 3
  {
    assert Popcount(11) == 3;
    assert Popcount(9) == 2;
    assert Shr(8, 3) == 1;
  }

  /**
   Block size and associativity 2^16 and 2^16 + 1 multiply to more than 2^32; the
   `unsigned` product wraps to 2^16 and the constructor derives 16 sets for a
   1 MiB cache that cannot hold a single set.
   */
  lemma WrappedProductOverstatesSets()
    ensures Constructible(Config(0x1_0000, 0x1_0001, 0x10_0000, 30, 2))
    ensures SetCount(Config(0x1_0000, 0x1_0001, 0x10_0000, 30, 2)) == 16
    ensures 0x10_0000 < 0x1_0000 * 0x1_0001
  {
    assert SetDivisor(Config(0x1_0000, 0x1_0001, 0x10_0000, 30, 2)) == 0x1_0000;
  }

  /** The wrapped configuration above still has a power-of-two block size and set count. */
  lemma WrappedProductSplits()
    ensures ShiftMaskValid(Config(0x1_0000, 0x1_0001, 0x10_0000, 30, 2))
  {
    WrappedProductOverstatesSets();
    assert Pow2(4) == 16;
    Pow2IsPowerOfTwo(4);
    assert Pow2(16) == 0x1_0000 by { Pow2Add(4, 12); }
    Pow2IsPowerOfTwo(16);
  }
}
